=== FILE: README.md ===
# OCRScissors in Dafny

OCRScissors is a desktop screenshot-to-text tool. At startup it checks that the Tesseract
OCR engine is installed. It then shows a full-screen overlay. The user presses, drags and
releases the mouse to select a rectangle. The rectangle is captured, written to a temporary
PNG, and passed to the `tesseract` command line. The engine's output is filtered, joined
and trimmed, then sanitised, and the result is put on the clipboard.

This project models the decisions that code makes, as pure functions over values:

- **Selection tracker** (`Selection`, `selection.dfy`). The overlay's `startDrag` and
  `selectionRect` fields become one state: `Idle`, `Dragging(start, rect)` or
  `Released(selection)`. A press resets the rectangle to `new Rectangle()`, which is
  (0, 0, 0, 0). Each drag recomputes the rectangle from the press point and the current
  point. A release hands the rectangle to the guard in `processSelection`, which rejects a
  null rectangle or one with zero width or height. Coordinates are Java `int`s (`JavaInt`):
  the subtraction wraps around and `Math.abs(Integer.MIN_VALUE)` stays negative, exactly as
  in Java. `Rectangle.setRect` receives whole-number doubles, which it stores unchanged.
- **OCR invoker** (`Tesseract`, `tesseract.dfy`). This covers the startup version probe,
  the fixed argument vector, the `getStrings` line filter, and the error or result decision
  in `runTesseract`. The process itself is represented by the lines it printed and its exit
  code.
- **Text sanitiser** (`Sanitizer`, `sanitizer.dfy`). `cleanText` removes every character
  outside `\p{L}`, `\p{N}`, `\p{Punct}` and `\s`, then applies `String.trim`. Java's
  `\p{Punct}` is the 32 ASCII punctuation characters. Its `\s` is space, tab, newline,
  vertical tab, form feed and carriage return. The Unicode tables for letters and numbers
  are a `Categories` value of two predicates, so every sanitiser property holds for any
  such tables.
- **Pipeline** (`Pipeline`, `pipeline.dfy`). `processSelection` and its background task
  end either in an error dialog (title and message) or in text copied to the clipboard.
  Screen capture and the engine run are one function parameter from the rectangle to the
  engine's result.
- **Support modules.** `Results` models `null` and exceptions. `Sequences` holds
  order-preserving selection and the subsequence relation. `JavaString` holds `trim`,
  `String.join`, `Integer.toString`, `contains` and ASCII lower-casing. Each comes with an
  independent partner: a characterisation of `trim`, a `Split` that inverts `Join`, and a
  decimal parser that inverts `Decimal`.

Behaviour of the code worth noting, which the model keeps:

- A press does not place the empty rectangle at the press point. It places it at (0, 0)
  (`Selection.Step`).
- "No text recognized" is decided before trimming. Empty lines are dropped by the filter, so
  output with no non-empty line is that error. But output with at least one non-empty line,
  every line made only of characters at or below U+0020, yields an empty result, which is
  then copied (`Tesseract.BlankOutputIsNotAnError`).
- The banner filter runs before `trim`, so a banner line with leading blanks is kept. When
  every kept line before it holds only characters at or below U+0020 (in particular when it
  is the first kept line), the trimmed text handed to the sanitiser starts with "Tesseract"
  (`Tesseract.TrimExposesBanner`). Otherwise the banner stays inside the text, blank included
  (`Tesseract.BannerInsideText`). Banner and progress lines
  are absent only from the kept lines themselves (`Tesseract.ResultHasNoBanner`).
- The normalisation "x = min, width = |dx|" holds only while the distance between the two
  points fits in a Java `int` (`Selection.Reachable`). Beyond that, Java's wrap-around makes
  the width wrong, and the guard lets the rectangle through. At a distance of exactly 2^31
  the width is negative (`Selection.WidthCanWrapNegative`). Any other such distance wraps to
  a positive value, e.g. width 1 for a drag from x = `Integer.MAX_VALUE` to
  x = `Integer.MIN_VALUE` (`Selection.WidthCanWrapPositive`). Screen coordinates never come
  near that bound, so this is recorded as behaviour, not as a defect.

## Model

| member | source | states |
|---|---|---|
| JavaInt.Sub | src/main/java/OCRScissors.java:122-123 | Java `int` subtraction: congruent to the true difference modulo 2^32, and equal to it when that fits |
| JavaInt.Abs | src/main/java/OCRScissors.java:122-123 | `Math.abs`: a non-negative magnitude for every `int` except `Integer.MIN_VALUE`, which maps to itself |
| JavaInt.Min | src/main/java/OCRScissors.java:119-120 | `Math.min` returns one of its arguments and is no larger than either |
| Selection.UpdateRect | src/main/java/OCRScissors.java:118-124 | The rectangle's origin is the smaller coordinate of the press and current points. When their distance fits in an `int`, width and height are non-negative and the rectangle spans exactly from one point to the other |
| Selection.UpdateRectSymmetric | src/main/java/OCRScissors.java:118-124 | Dragging from either corner to the other gives the same rectangle, even when the subtraction wraps |
| Selection.WidthCanWrapNegative | src/main/java/OCRScissors.java:122-130 | A drag from (0, 0) to (`Integer.MIN_VALUE`, 10) yields a negative width, and the guard accepts that rectangle for capture |
| Selection.WidthCanWrapPositive | src/main/java/OCRScissors.java:122-130 | A drag from (`Integer.MAX_VALUE`, 0) to (`Integer.MIN_VALUE`, 5) yields width 1 instead of 2^32 - 1, and the guard accepts that rectangle for capture |
| Selection.Step | src/main/java/OCRScissors.java:97-116 | A press records the press point and resets the rectangle to (0, 0, 0, 0). A drag after a press normalises against the recorded point. A release hands over the current rectangle, or null when no press came first. A drag before any press changes nothing. A disposed overlay ignores further events |
| Selection.LastDragWins | src/main/java/OCRScissors.java:110-124 | After any non-empty run of drags, the rectangle depends only on the press point and the last drag point |
| Selection.Gesture | src/main/java/OCRScissors.java:97-124 | Press, then drags, then release: the released rectangle is the normalisation of the press point and the last drag point. The release point is not used |
| Selection.ClickIsRejected | src/main/java/OCRScissors.java:99-130 | A press followed directly by a release leaves the (0, 0, 0, 0) rectangle, and the guard rejects it |
| Selection.RunConsistent | src/main/java/OCRScissors.java:97-124 | For any event sequence, the tracker only holds the empty rectangle or the normalisation of two points |
| Selection.Decide | src/main/java/OCRScissors.java:126-133 | Rejects exactly a null rectangle or one with zero width or height. Otherwise it captures exactly that rectangle |
| JavaString.Trim | src/main/java/OCRScissors.java:197 | `trim` returns a contiguous slice. Everything cut from either end is at most U+0020. A non-empty result starts and ends above U+0020 |
| JavaString.TrimUnique | src/main/java/OCRScissors.java:197 | That characterisation of `trim` has exactly one solution |
| JavaString.TrimIdempotent | src/main/java/OCRScissors.java:272 | Trimming twice is trimming once |
| JavaString.TrimKeepsVisible | src/main/java/OCRScissors.java:272 | Trimming keeps every occurrence of every character above U+0020 |
| JavaString.StartsWith | src/main/java/OCRScissors.java:218-220 | `startsWith` holds exactly when the prefix is no longer than the string and matches it character by character |
| JavaString.Join | src/main/java/OCRScissors.java:190-197 | `String.join` of no lines is empty. Otherwise it begins with the first line and introduces no character other than the separator |
| JavaString.SplitJoin | src/main/java/OCRScissors.java:190-197 | Lines without a newline, joined by newlines, split back into the same non-empty list of lines |
| JavaString.JoinSplit | src/main/java/OCRScissors.java:197 | Every string is the newline-join of its newline-separated pieces |
| JavaString.Decimal | src/main/java/OCRScissors.java:189 | `Integer.toString` of the exit code reads back as the same integer, negatives included, and contains no newline. It is the canonical form: it starts with `-` exactly for a negative number, and its digits have no leading zero unless the number is 0 |
| JavaString.Contains | src/main/java/OCRScissors.java:41 | `contains` is true exactly when the pattern occurs at some index |
| JavaString.ToLower | src/main/java/OCRScissors.java:41 | Lower-casing keeps the length and maps each character on its own |
| Tesseract.ProbeAcceptsIff | src/main/java/OCRScissors.java:40-41 | The version probe accepts exactly the outputs that contain "tesseract" in any ASCII letter case |
| Tesseract.ProbeExamples | src/main/java/OCRScissors.java:41 | A real version banner and "TESSERACT" are accepted, and a truncated name is not |
| Tesseract.CheckInstallation | src/main/java/OCRScissors.java:34-47 | Startup proceeds exactly when the probe ran and was accepted. Otherwise the process exits with status 1. A failed launch shows the exception's own message, and a rejected probe's message is the fixed prefix followed by the whole probe output |
| Tesseract.Command | src/main/java/OCRScissors.java:169-178 | The argument vector has nine entries, and the first is the engine's name |
| Tesseract.CommandMeaning | src/main/java/OCRScissors.java:169-178 | For an image path not starting with `-`, `ParseArgs` reads the positionals [path, stdout] and the options -l rus+eng, --dpi 300 and -c debug_file=/dev/null. The `--dpi` value reads back as 300, the resolution `setDPI` writes into the image at line 250 |
| Tesseract.OptionArgsParse | src/main/java/OCRScissors.java:173-178 | The six option arguments read as the three options -l rus+eng, --dpi 300 and -c debug_file=/dev/null, with no positional among them |
| Tesseract.GetStrings | src/main/java/OCRScissors.java:211-226 | The loop keeps exactly the non-empty lines starting with neither "Estimating" nor "Tesseract". The result is an order-preserving subsequence, and every such line keeps its number of occurrences |
| Tesseract.RunTesseract | src/main/java/OCRScissors.java:187-197 | The run fails exactly when the exit code is non-zero or no line was kept. A non-zero code gives the error-code message, checked before emptiness. Exit 0 with no kept lines gives "No text recognized". Success is the trim of the kept lines joined by newlines |
| Tesseract.ErrorNamesExitCode | src/main/java/OCRScissors.java:188-191 | In a failed run's message, the first line after the prefix reads back as the exit code |
| Tesseract.ErrorCarriesOutput | src/main/java/OCRScissors.java:188-191 | A failed run's message ends with the kept output lines, recoverable in order |
| Tesseract.ResultHasNoBanner | src/main/java/OCRScissors.java:184-197 | The kept lines that a successful run joins, before `trim`, contain no banner, progress or empty line, and they appear in the engine's order |
| Tesseract.BlankOutputIsNotAnError | src/main/java/OCRScissors.java:193-197 | Output consisting of one blank line passes the emptiness check and yields the empty string |
| Tesseract.TrimExposesBanner | src/main/java/OCRScissors.java:197-220 | The output line " Tesseract 5.3.0" passes the banner filter, and after `trim` the result is "Tesseract 5.3.0" |
| Tesseract.BannerInsideText | src/main/java/OCRScissors.java:197-220 | For output ["text", " Tesseract"] with exit 0, both lines pass the filter and the result is "text\n Tesseract": the banner stays inside the text |
| Tesseract.ExitCodeCheckedFirst | src/main/java/OCRScissors.java:187-195 | A non-zero exit code is reported even when no line was kept, instead of "No text recognized" |
| Sanitizer.StripDisallowed | src/main/java/OCRScissors.java:272 | `replaceAll` deletes exactly the characters outside the class. The result is a subsequence of the input, and every allowed character keeps its count while every other one disappears |
| Sanitizer.CleanText | src/main/java/OCRScissors.java:272 | `cleanText` is exactly the `trim` of the stripped text. So it is a subsequence of its input made only of allowed characters, interior whitespace survives, and a non-empty result starts and ends above U+0020 |
| Sanitizer.CleanTextKeepsAllowed | src/main/java/OCRScissors.java:272 | Every allowed character above U+0020 keeps its number of occurrences |
| Sanitizer.CleanTextFixed | src/main/java/OCRScissors.java:272 | Text made only of allowed characters, with no blank at either end, passes through `cleanText` unchanged |
| Sanitizer.CleanTextIdempotent | src/main/java/OCRScissors.java:272 | Sanitising sanitised text changes nothing |
| Pipeline.ProcessSelection | src/main/java/OCRScissors.java:126-145 | A rejected selection shows the "Invalid selection area" dialog. An exception from capture or the engine run shows an "OCR Error" dialog with its message, and so does a failed `runTesseract`. A successful run copies `cleanText` of its result: exactly when the engine exited with 0 and some line was kept, the cleaned trim of the kept lines joined by newlines |
| Pipeline.RejectIgnoresEngine | src/main/java/OCRScissors.java:126-130 | A rejected selection never consults capture or the engine |
| Pipeline.CaptureUsesSelection | src/main/java/OCRScissors.java:131-135 | An accepted selection's outcome depends only on the engine's run for exactly that rectangle |
| Pipeline.CopiedTextProperties | src/main/java/OCRScissors.java:133-135 | When an accepted selection's engine run exits with 0 and keeps a line, the text is copied, and it is a subsequence of the kept engine lines joined by newlines. It holds only allowed characters and has no blank at either end |
| Pipeline.SingleLineResult | src/main/java/OCRScissors.java:193-197 | A single kept line with no blank at either end, after exit 0, is the result unchanged |
| Pipeline.CleanLineIsCopied | src/main/java/OCRScissors.java:131-135 | When the engine exits with 0 after printing one kept line that sanitising leaves unchanged, exactly that line reaches the clipboard |
| Pipeline.HelloWorldGesture | src/main/java/OCRScissors.java:97-124 | Press (100,100), drag to (300,250) and release: the released rectangle is (100,100,200,150) |
| Pipeline.HelloWorldScenario | src/main/java/OCRScissors.java:126-135 | When the engine prints "Hello, World!" for the rectangle (100,100,200,150), that text is copied unchanged |
| Pipeline.ClickScenario | src/main/java/OCRScissors.java:99-130 | Press and release at (50,50) shows the invalid-selection dialog, whatever the engine would do |
| Pipeline.EngineFailureScenario | src/main/java/OCRScissors.java:187-191 | Exit code 1 with output "language data not found" shows an OCR error naming both |

## Left out

- Painting the overlay (`createOverlay`, `drawSelectionArea`, colours, stroke, arc radius, look-and-feel): UI rendering with no decision in it.
- `Robot.createScreenCapture`, `ProcessBuilder`, reading the process streams and `waitFor`: OS and process I/O. They are represented by the `engine` parameter's result (an exception message, or output lines plus an exit code) and by the version probe's output.
- `BufferedReader.readLine` splitting the stream into lines: output arrives as a sequence of lines. Properties that rejoin lines assume no line contains a newline, which `readLine` guarantees.
- The background `Thread`, `invokeLater`, `overlay.dispose` and `System.exit(0)`: concurrency and process lifecycle. Only the startup exit status 1 is modelled.
- `saveImageWithDPI` and `setDPI`: PNG writing and the floating-point `25.4 / 300` pixel size.
- Creating and deleting the temporary file, and the claim that it never outlives a run: filesystem I/O.
- `copyToClipboard`, `JOptionPane` dialogs and `getStackTrace`: platform side effects. A dialog is modelled as its title and the exception's message, without the appended stack trace.
- `main`'s "Fatal error" dialog: it wraps exceptions from the constructor, whose only modelled failure is the version check.
- Tesseract.ParseArgs: an assumed simplification of the engine's own argument syntax, not defined by the program. Eight fixed options take the next argument as their value, and every other argument is a positional, wherever it appears. `CommandMeaning` states what the command means under that reading.
- Sanitizer.Categories: the Unicode tables behind `\p{L}` and `\p{N}` are abstract predicates, not encoded.
- JavaString.ToLower: lower-cases ASCII letters only, unlike Java's full Unicode `toLowerCase`. The probe's verdict is unaffected, because no non-ASCII character lower-cases to a letter of "tesseract".
- Strings are sequences of Unicode code points rather than UTF-16 units. Java's regular expressions and `trim` agree with this for well-formed text, since surrogates are never at or below U+0020 and the pattern matches whole code points.

=== FILE: java_int.dfy ===
/** Java's 32-bit `int` and the few operations on it that the selection tracker uses. */
module JavaInt {

  const MinInt32: int := -0x8000_0000
  const MaxInt32: int := 0x7fff_ffff
  const Modulus: int := 0x1_0000_0000

  /** The values a Java `int` can hold. */
  type Int32 = x: int | MinInt32 <= x <= MaxInt32

  predicate InRange(x: int) {
    MinInt32 <= x <= MaxInt32
  }

  /** Java's `a - b` on `int`: the mathematical difference, wrapped into 32 bits. */
  function Sub(a: Int32, b: Int32): (r: Int32)
    ensures (r - (a - b)) % Modulus == 0
    ensures InRange(a - b) ==> r == a - b
  {
    var d := a - b;
    if d < MinInt32 then d + Modulus
    else if d > MaxInt32 then d - Modulus
    else d
  }

  /** Java's unary `-a` on `int`: the negation of `MinInt32` is `MinInt32` itself. */
  function Neg(a: Int32): (r: Int32)
    ensures (r + a) % Modulus == 0
    ensures a != MinInt32 ==> r == -a
  {
    if a == MinInt32 then MinInt32 else -a
  }

  /** `Math.abs(int)`: the magnitude, except that `Math.abs(MinInt32)` is `MinInt32`. */
  function Abs(a: Int32): (r: Int32)
    ensures a != MinInt32 ==> r >= 0 && (r == a || r == -a)
    ensures a == MinInt32 ==> r == MinInt32
  {
    if a < 0 then Neg(a) else a
  }

  /** `Math.min(int, int)`. */
  function Min(a: Int32, b: Int32): (r: Int32)
    ensures r <= a && r <= b
    ensures r == a || r == b
  {
    if a <= b then a else b
  }
}

=== FILE: java_string.dfy ===
/** The `java.lang.String` operations the program relies on, over strings of code points. */
module JavaString {
  import opened Results

  /** `s.startsWith(p)`. */
  function StartsWith(s: string, p: string): (b: bool)
    ensures b <==> |p| <= |s| && forall i :: 0 <= i < |p| ==> s[i] == p[i]
  {
    |p| <= |s| && s[..|p|] == p
  }

  /** A string cannot start with a prefix whose first character it does not share. */
  lemma FirstCharDiffers(s: string, p: string)
    requires s != [] && p != [] && s[0] != p[0]
    ensures !StartsWith(s, p)
  {
  }

  // ---------------------------------------------------------------- trim

  /** `String.trim` strips every character at or below U+0020 from both ends. */
  predicate IsTrimmable(c: char) {
    c <= ' '
  }

  /** Index of the first character that `trim` keeps, or `|s|` if there is none. */
  function TrimStart(s: string): (lo: nat)
    ensures lo <= |s|
    ensures forall k :: 0 <= k < lo ==> IsTrimmable(s[k])
    ensures lo < |s| ==> !IsTrimmable(s[lo])
    decreases |s|
  {
    if s == [] || !IsTrimmable(s[0]) then 0 else 1 + TrimStart(s[1..])
  }

  /** One past the last character that `trim` keeps, or `0` if there is none. */
  function TrimEnd(s: string): (hi: nat)
    ensures hi <= |s|
    ensures forall k :: hi <= k < |s| ==> IsTrimmable(s[k])
    ensures hi > 0 ==> !IsTrimmable(s[hi - 1])
    decreases |s|
  {
    if s == [] || !IsTrimmable(s[|s| - 1]) then |s| else TrimEnd(s[..|s| - 1])
  }

  /** `r` is `s[lo..hi]`, everything cut off is trimmable, and `r` neither starts nor ends with a trimmable character. */
  predicate TrimmedAt(r: string, s: string, lo: int, hi: int) {
    && 0 <= lo <= hi <= |s|
    && r == s[lo..hi]
    && (forall k :: 0 <= k < lo ==> IsTrimmable(s[k]))
    && (forall k :: hi <= k < |s| ==> IsTrimmable(s[k]))
    && (r != [] ==> !IsTrimmable(r[0]) && !IsTrimmable(r[|r| - 1]))
  }

  ghost predicate IsTrimOf(r: string, s: string) {
    exists lo, hi :: TrimmedAt(r, s, lo, hi)
  }

  /** `s.trim()`. */
  function Trim(s: string): (r: string)
    ensures IsTrimOf(r, s)
  {
    var lo := TrimStart(s);
    if lo == |s| then
      assert TrimmedAt([], s, |s|, |s|);
      []
    else
      var hi := TrimEnd(s);
      assert TrimmedAt(s[lo..hi], s, lo, hi);
      s[lo..hi]
  }

  /** The characterisation of `trim` has exactly one solution. */
  lemma TrimUnique(r: string, s: string)
    requires IsTrimOf(r, s)
    ensures r == Trim(s)
  {
    var lo, hi :| TrimmedAt(r, s, lo, hi);
    if r == [] {
      AllTrimmable(s, lo, hi);
    } else {
      assert r[0] == s[lo] && r[|r| - 1] == s[hi - 1];
      TrimBounds(s, lo, hi);
    }
  }

  /** An empty trim means every character of `s` is trimmable, so `TrimStart` runs to the end. */
  lemma AllTrimmable(s: string, lo: int, hi: int)
    requires TrimmedAt([], s, lo, hi)
    ensures TrimStart(s) == |s|
  {
    forall k | 0 <= k < |s| ensures IsTrimmable(s[k]) {
      if k >= lo { assert k >= hi; }
    }
  }

  /** Bounds whose end characters are not trimmable are exactly `TrimStart` and `TrimEnd`. */
  lemma TrimBounds(s: string, lo: int, hi: int)
    requires 0 <= lo < hi <= |s|
    requires forall k :: 0 <= k < lo ==> IsTrimmable(s[k])
    requires forall k :: hi <= k < |s| ==> IsTrimmable(s[k])
    requires !IsTrimmable(s[lo]) && !IsTrimmable(s[hi - 1])
    ensures TrimStart(s) == lo && TrimEnd(s) == hi
  {
  }

  /** A string that neither starts nor ends with a trimmable character is its own trim. */
  lemma TrimFixed(s: string)
    requires s != [] ==> !IsTrimmable(s[0]) && !IsTrimmable(s[|s| - 1])
    ensures Trim(s) == s
  {
    assert TrimmedAt(s, s, 0, |s|);
    TrimUnique(s, s);
  }

  lemma TrimIdempotent(s: string)
    ensures Trim(Trim(s)) == Trim(s)
  {
    TrimFixed(Trim(s));
  }

  /** Trimming removes only trimmable characters: every other character keeps its count. */
  lemma TrimKeepsVisible(s: string, c: char)
    requires !IsTrimmable(c)
    ensures multiset(Trim(s))[c] == multiset(s)[c]
  {
    var lo, hi :| TrimmedAt(Trim(s), s, lo, hi);
    SliceKeepsVisible(s, lo, hi, c);
  }

  /** Cutting only trimmable characters from both ends keeps every other character's count. */
  lemma SliceKeepsVisible(s: string, lo: int, hi: int, c: char)
    requires 0 <= lo <= hi <= |s|
    requires forall k :: 0 <= k < lo ==> IsTrimmable(s[k])
    requires forall k :: hi <= k < |s| ==> IsTrimmable(s[k])
    requires !IsTrimmable(c)
    ensures multiset(s[lo..hi])[c] == multiset(s)[c]
  {
    var head, middle, tail := s[..lo], s[lo..hi], s[hi..];
    assert s == head + middle + tail;
    assert c !in head by {
      assert forall k :: 0 <= k < |head| ==> head[k] == s[k];
    }
    assert c !in tail by {
      assert forall k :: 0 <= k < |tail| ==> tail[k] == s[hi + k];
    }
  }

  // ---------------------------------------------------------------- join and split

  /** `String.join(sep, lines)` for a one-character separator. */
  function Join(lines: seq<string>, sep: char): (r: string)
    ensures lines == [] ==> r == []
    ensures lines != [] ==> StartsWith(r, lines[0])
    ensures forall c :: c in r && c != sep ==> exists i :: 0 <= i < |lines| && c in lines[i]
    decreases |lines|
  {
    if |lines| == 0 then []
    else if |lines| == 1 then lines[0]
    else lines[0] + [sep] + Join(lines[1..], sep)
  }

  /** The pieces of `s` between occurrences of `sep`; the reference inverse of `Join`. */
  function Split(s: string, sep: char): (pieces: seq<string>)
    ensures |pieces| >= 1
    ensures forall i :: 0 <= i < |pieces| ==> sep !in pieces[i]
    decreases |s|
  {
    if s == [] then [[]]
    else
      var rest := Split(s[1..], sep);
      if s[0] == sep then [[]] + rest
      else [[s[0]] + rest[0]] + rest[1..]
  }

  lemma {:induction false} SplitWithout(a: string, sep: char)
    requires sep !in a
    ensures Split(a, sep) == [a]
  {
    if a != [] {
      SplitWithout(a[1..], sep);
      assert [a[0]] + a[1..] == a;
    }
  }

  /** Splitting at the first separator peels off the text before it. */
  lemma {:induction false} SplitFirst(a: string, b: string, sep: char)
    requires sep !in a
    ensures Split(a + [sep] + b, sep) == [a] + Split(b, sep)
  {
    if a == [] {
      assert ([sep] + b)[1..] == b;
    } else {
      assert (a + [sep] + b)[1..] == a[1..] + [sep] + b;
      SplitFirst(a[1..], b, sep);
      assert [a[0]] + a[1..] == a;
    }
  }

  /** Joined lines that contain no separator split back into the same lines. */
  lemma {:induction false} SplitJoin(lines: seq<string>, sep: char)
    requires |lines| >= 1
    requires forall i :: 0 <= i < |lines| ==> sep !in lines[i]
    ensures Split(Join(lines, sep), sep) == lines
    decreases |lines|
  {
    if |lines| == 1 {
      SplitWithout(lines[0], sep);
    } else {
      SplitFirst(lines[0], Join(lines[1..], sep), sep);
      SplitJoin(lines[1..], sep);
      assert [lines[0]] + lines[1..] == lines;
    }
  }

  /** Every string is the join of its pieces. */
  lemma {:induction false} JoinSplit(s: string, sep: char)
    ensures Join(Split(s, sep), sep) == s
    decreases |s|
  {
    if s != [] {
      var rest := Split(s[1..], sep);
      JoinSplit(s[1..], sep);
      if s[0] == sep {
        assert ([[]] + rest)[1..] == rest;
      } else if |rest| == 1 {
        assert [s[0]] + s[1..] == s;
      } else {
        assert ([[s[0]] + rest[0]] + rest[1..])[1..] == rest[1..];
        assert [s[0]] + s[1..] == s;
      }
    }
  }

  // ---------------------------------------------------------------- decimal numbers

  predicate IsDigit(c: char) {
    '0' <= c <= '9'
  }

  predicate AllDigits(s: string) {
    forall i :: 0 <= i < |s| ==> IsDigit(s[i])
  }

  function DigitChar(d: int): (c: char)
    requires 0 <= d < 10
    ensures IsDigit(c)
  {
    ('0' as int + d) as char
  }

  function DigitValue(c: char): (d: nat)
    requires IsDigit(c)
    ensures d < 10
  {
    c as int - '0' as int
  }

  function NatDecimal(n: nat): (r: string)
    ensures |r| >= 1 && AllDigits(r)
  {
    if n < 10 then [DigitChar(n)] else NatDecimal(n / 10) + [DigitChar(n % 10)]
  }

  /**
   * `Integer.toString(n)`, which is what `"..." + n` appends: it reads back as `n`, and it is
   * the canonical form, a `-` exactly for negatives and no leading zero.
   */
  function Decimal(n: int): (r: string)
    ensures ParseDecimal(r) == Some(n)
    ensures '\n' !in r
    ensures r != [] && (r[0] == '-' <==> n < 0)
    ensures var digits := if n < 0 then r[1..] else r;
      digits != [] && AllDigits(digits) && (digits[0] == '0' ==> digits == "0")
  {
    if n < 0 then
      var r := "-" + NatDecimal(-n);
      assert r[1..] == NatDecimal(-n);
      NatDecimalRoundTrip(-n);
      NatDecimalNoLeadingZero(-n);
      r
    else
      NatDecimalRoundTrip(n);
      NatDecimalNoLeadingZero(n);
      NatDecimal(n)
  }

  /** Only zero is written with a leading `0`. */
  lemma {:induction false} NatDecimalNoLeadingZero(n: nat)
    ensures NatDecimal(n)[0] == '0' ==> n == 0
  {
    if n >= 10 {
      assert NatDecimal(n)[0] == NatDecimal(n / 10)[0];
      NatDecimalNoLeadingZero(n / 10);
    }
  }

  function ParseNat(s: string): nat
    requires |s| >= 1 && AllDigits(s)
    decreases |s|
  {
    if |s| == 1 then DigitValue(s[0])
    else 10 * ParseNat(s[..|s| - 1]) + DigitValue(s[|s| - 1])
  }

  /** The reference reader of decimal integers: an optional `-` followed by at least one digit. */
  function ParseDecimal(s: string): Option<int> {
    if |s| >= 2 && s[0] == '-' && AllDigits(s[1..]) then Some(0 - ParseNat(s[1..]) as int)
    else if |s| >= 1 && AllDigits(s) then Some(ParseNat(s))
    else None
  }

  lemma {:induction false} NatDecimalRoundTrip(n: nat)
    ensures ParseNat(NatDecimal(n)) == n
  {
    if n >= 10 {
      var s := NatDecimal(n);
      assert s[..|s| - 1] == NatDecimal(n / 10);
      NatDecimalRoundTrip(n / 10);
    }
  }

  // ---------------------------------------------------------------- search and case

  predicate OccursAt(s: string, p: string, i: int) {
    0 <= i && i + |p| <= |s| && s[i..i + |p|] == p
  }

  /** `s.contains(p)`. */
  function Contains(s: string, p: string): (b: bool)
    ensures b <==> exists i :: OccursAt(s, p, i)
    decreases |s|
  {
    if |s| < |p| then false
    else if s[..|p|] == p then
      assert OccursAt(s, p, 0);
      true
    else
      var b := Contains(s[1..], p);
      assert forall i :: OccursAt(s[1..], p, i) <==> OccursAt(s, p, i + 1);
      assert !OccursAt(s, p, 0);
      assert forall i :: OccursAt(s, p, i) ==> OccursAt(s[1..], p, i - 1);
      b
  }

  /** `Character.toLowerCase` restricted to ASCII: `A`..`Z` map to `a`..`z`, everything else is unchanged. */
  function LowerChar(c: char): char {
    if 'A' <= c <= 'Z' then (c as int + 32) as char else c
  }

  /** `s.toLowerCase()`, restricted to ASCII as `LowerChar` is. */
  function ToLower(s: string): (r: string)
    ensures |r| == |s|
    ensures forall i :: 0 <= i < |s| ==> r[i] == LowerChar(s[i])
  {
    seq(|s|, i requires 0 <= i < |s| => LowerChar(s[i]))
  }
}

=== FILE: pipeline.dfy ===
/**
 * `processSelection` and the background task it starts: capture the released rectangle,
 * run the engine on it, sanitise the text and put it on the clipboard, or show the
 * error dialog that ends the run.
 */
module Pipeline {
  import opened Results
  import opened JavaInt
  import opened JavaString
  import opened Sequences
  import opened Selection
  import opened Tesseract
  import opened Sanitizer

  /**
   * What capturing a rectangle and running the engine on its image produced: an exception
   * (from the screen capture, the temporary file or starting the process) or the lines
   * the engine printed and its exit code.
   */
  datatype EngineRun = Threw(message: string) | Exited(output: seq<string>, exitCode: Int32)

  /** The visible end of a run: an error dialog with its title and message, or text on the clipboard. */
  datatype Outcome = ErrorDialog(title: string, message: string) | Copied(text: string)

  const InvalidSelectionMessage: string := "Invalid selection area"

  /**
   * `processSelection`, given the released rectangle and `engine`, which stands for
   * capturing a rectangle of the screen and running the engine on the image.
   */
  function ProcessSelection(selection: Option<Rect>, engine: Rect -> EngineRun, cat: Categories): (o: Outcome)
    ensures Decide(selection).Reject? ==> o == ErrorDialog("Error", InvalidSelectionMessage)
    ensures o.ErrorDialog? && Decide(selection).Capture? ==> o.title == "OCR Error"
    ensures o.Copied? ==>
      && Decide(selection).Capture?
      && engine(selection.value).Exited?
      && engine(selection.value).exitCode == 0
      && KeptLines(engine(selection.value).output) != []
    ensures Decide(selection).Capture? && engine(selection.value).Threw? ==>
      o == ErrorDialog("OCR Error", engine(selection.value).message)
    ensures Decide(selection).Capture? && engine(selection.value).Exited? ==>
      var run := RunTesseract(engine(selection.value).output, engine(selection.value).exitCode);
      && (run.Err? ==> o == ErrorDialog("OCR Error", run.message))
      && (run.Ok? ==> o == Copied(CleanText(cat, run.value)))
    ensures (&& Decide(selection).Capture?
             && engine(selection.value).Exited?
             && engine(selection.value).exitCode == 0
             && KeptLines(engine(selection.value).output) != []) ==>
      o == Copied(CleanText(cat, Trim(Join(KeptLines(engine(selection.value).output), '\n'))))
  {
    match Decide(selection)
    case Reject => ErrorDialog("Error", InvalidSelectionMessage)
    case Capture(area) =>
      match engine(area)
      case Threw(m) => ErrorDialog("OCR Error", m)
      case Exited(output, code) =>
        match RunTesseract(output, code)
        case Err(m) => ErrorDialog("OCR Error", m)
        case Ok(text) => Copied(CleanText(cat, text))
  }

  /** A rejected selection never reaches the capture stage: the engine is not consulted. */
  lemma RejectIgnoresEngine(selection: Option<Rect>, e1: Rect -> EngineRun, e2: Rect -> EngineRun, cat: Categories)
    requires Decide(selection).Reject?
    ensures ProcessSelection(selection, e1, cat) == ProcessSelection(selection, e2, cat)
  {
  }

  /** An accepted selection is captured exactly: only the engine's run on that rectangle matters. */
  lemma CaptureUsesSelection(r: Rect, e1: Rect -> EngineRun, e2: Rect -> EngineRun, cat: Categories)
    requires Decide(Some(r)).Capture?
    requires e1(r) == e2(r)
    ensures ProcessSelection(Some(r), e1, cat) == ProcessSelection(Some(r), e2, cat)
  {
  }

  /**
   * What reaches the clipboard is a sanitised subsequence of the engine's kept lines joined
   * by newlines: allowed characters only, without leading or trailing blanks.
   */
  lemma CopiedTextProperties(selection: Option<Rect>, engine: Rect -> EngineRun, cat: Categories)
    requires Decide(selection).Capture? && engine(selection.value).Exited?
    requires engine(selection.value).exitCode == 0 && KeptLines(engine(selection.value).output) != []
    ensures ProcessSelection(selection, engine, cat).Copied?
    ensures var text := ProcessSelection(selection, engine, cat).text;
      && IsSubsequence(text, Join(KeptLines(engine(selection.value).output), '\n'))
      && (forall i :: 0 <= i < |text| ==> Allowed(cat, text[i]))
      && (text != [] ==> !IsTrimmable(text[0]) && !IsTrimmable(text[|text| - 1]))
  {
    var run := engine(selection.value);
    var joined := Join(KeptLines(run.output), '\n');
    var trimmed := RunTesseract(run.output, run.exitCode).value;
    var lo, hi :| TrimmedAt(trimmed, joined, lo, hi);
    SliceIsSubsequence(joined, lo, hi);
    SubsequenceTransitive(CleanText(cat, trimmed), trimmed, joined);
  }

  // ---------------------------------------------------------------- end-to-end examples

  /** Letters and digits as far as ASCII goes. */
  const AsciiCategories: Categories :=
    Categories(c => 'A' <= c <= 'Z' || 'a' <= c <= 'z', c => '0' <= c <= '9')

  /** A single recognised line that `getStrings` keeps and `trim` leaves alone is the result. */
  lemma SingleLineResult(line: string)
    requires KeepLine(line)
    requires !IsTrimmable(line[0]) && !IsTrimmable(line[|line| - 1])
    ensures RunTesseract([line], 0) == Ok(line)
  {
    assert [line][1..] == [];
    assert KeptLines([line]) == [line];
    TrimFixed(line);
  }

  /** A single kept line that sanitising leaves alone is exactly what reaches the clipboard. */
  lemma CleanLineIsCopied(r: Rect, engine: Rect -> EngineRun, cat: Categories, line: string)
    requires Decide(Some(r)).Capture?
    requires engine(r) == Exited([line], 0)
    requires KeepLine(line) && CleanText(cat, line) == line
    ensures ProcessSelection(Some(r), engine, cat) == Copied(line)
  {
    SingleLineResult(line);
  }

  const HelloWorld: string := "Hello, World!"

  lemma HelloWorldIsKept()
    ensures KeepLine(HelloWorld)
  {
    FirstCharDiffers(HelloWorld, "Estimating");
    FirstCharDiffers(HelloWorld, "Tesseract");
  }

  lemma HelloWorldIsClean()
    ensures CleanText(AsciiCategories, HelloWorld) == HelloWorld
    ensures !IsTrimmable(HelloWorld[0]) && !IsTrimmable(HelloWorld[|HelloWorld| - 1])
  {
    assert forall i :: 0 <= i < |HelloWorld| ==> Allowed(AsciiCategories, HelloWorld[i]);
    CleanTextFixed(AsciiCategories, HelloWorld);
  }

  /** Press at (100, 100), drag to (300, 250), release: the rectangle (100, 100, 200, 150) is handed to the guard. */
  lemma HelloWorldGesture()
    ensures Run(Idle, [Press(Point(100, 100)), Drag(Point(300, 250)), Release(Point(300, 250))])
      == Released(Some(Rect(100, 100, 200, 150)))
  {
    var p := Point(100, 100);
    var q := Point(300, 250);
    Gesture(Idle, p, [Drag(q)], q);
    assert [Press(p)] + [Drag(q)] + [Release(q)] == [Press(p), Drag(q), Release(q)];
  }

  /** When the engine prints "Hello, World!" for the rectangle (100, 100, 200, 150), that text reaches the clipboard unchanged. */
  lemma HelloWorldScenario(engine: Rect -> EngineRun)
    requires engine(Rect(100, 100, 200, 150)) == Exited([HelloWorld], 0)
    ensures ProcessSelection(Some(Rect(100, 100, 200, 150)), engine, AsciiCategories) == Copied(HelloWorld)
  {
    var area := Rect(100, 100, 200, 150);
    assert Decide(Some(area)).Capture?;
    HelloWorldIsKept();
    HelloWorldIsClean();
    CleanLineIsCopied(area, engine, AsciiCategories, HelloWorld);
  }

  /** Press and release at (50, 50) without a drag: the invalid-selection dialog, whatever the engine would do. */
  lemma ClickScenario(engine: Rect -> EngineRun, cat: Categories)
    ensures var sel := Run(Idle, [Press(Point(50, 50)), Release(Point(50, 50))]).selection;
      ProcessSelection(sel, engine, cat) == ErrorDialog("Error", InvalidSelectionMessage)
  {
    ClickIsRejected(Idle, Point(50, 50), Point(50, 50));
  }

  const MissingData: string := "language data not found"

  lemma MissingDataIsKept()
    ensures KeptLines([MissingData]) == [MissingData]
  {
    FirstCharDiffers(MissingData, "Estimating");
    FirstCharDiffers(MissingData, "Tesseract");
    assert [MissingData][1..] == [];
  }

  /** The engine exits with 1 after printing "language data not found": the OCR error dialog names both. */
  lemma EngineFailureScenario(r: Rect, engine: Rect -> EngineRun, cat: Categories)
    requires Decide(Some(r)).Capture?
    requires engine(r) == Exited([MissingData], 1)
    ensures ProcessSelection(Some(r), engine, cat)
      == ErrorDialog("OCR Error", ErrorCodePrefix + "1" + "\nOutput: " + MissingData)
  {
    MissingDataIsKept();
    assert Join([MissingData], '\n') == MissingData;
    assert Decimal(1) == "1";
  }
}

=== FILE: results.dfy ===
/** Failure-carrying values: Java's `null` and its exceptions, as data. */
module Results {

  /** A reference that may be `null`. */
  datatype Option<T> = None | Some(value: T)

  /** A computation that either returns a value or throws an exception with a message. */
  datatype Result<T> = Ok(value: T) | Err(message: string)
}

=== FILE: sanitizer.dfy ===
/**
 * `cleanText`: delete every character that is not a letter, a number, ASCII punctuation
 * or regex whitespace, then trim both ends. Java's regular expressions match code points,
 * so a string is a sequence of them here.
 */
module Sanitizer {
  import opened Sequences
  import opened JavaString

  /**
   * The Unicode general categories the pattern names by `\p{L}` (letters) and `\p{N}`
   * (numbers). Their tables are not part of this model; every property below holds for
   * whatever the two predicates are.
   */
  datatype Categories = Categories(isLetter: char -> bool, isNumber: char -> bool)

  /** `\p{Punct}`: the 32 ASCII punctuation characters, and no others. */
  predicate IsPunct(c: char) {
    || '!' <= c <= '/'
    || ':' <= c <= '@'
    || '[' <= c <= '`'
    || '{' <= c <= '~'
  }

  /** `\s` without UNICODE_CHARACTER_CLASS: space, tab, newline, vertical tab, form feed, carriage return. */
  predicate IsRegexSpace(c: char) {
    c == ' ' || c == '\t' || c == '\n' || c == '\U{000B}' || c == '\U{000C}' || c == '\r'
  }

  /** A character the negated character class does not match. */
  predicate Allowed(cat: Categories, c: char) {
    cat.isLetter(c) || cat.isNumber(c) || IsPunct(c) || IsRegexSpace(c)
  }

  function AllowedBy(cat: Categories): char -> bool {
    c => Allowed(cat, c)
  }

  /** The `replaceAll` step: every match of the class is replaced by the empty string. */
  function StripDisallowed(cat: Categories, s: string): (r: string)
    ensures IsSubsequence(r, s)
    ensures forall i :: 0 <= i < |r| ==> Allowed(cat, r[i])
    ensures forall c :: multiset(r)[c] == if Allowed(cat, c) then multiset(s)[c] else 0
  {
    SelectIsSubsequence(s, AllowedBy(cat));
    forall c ensures multiset(Select(s, AllowedBy(cat)))[c] == if Allowed(cat, c) then multiset(s)[c] else 0 {
      SelectCount(s, AllowedBy(cat), c);
    }
    Select(s, AllowedBy(cat))
  }

  /** `cleanText`. */
  function CleanText(cat: Categories, s: string): (r: string)
    ensures IsTrimOf(r, StripDisallowed(cat, s))
    ensures IsSubsequence(r, s)
    ensures forall i :: 0 <= i < |r| ==> Allowed(cat, r[i])
    ensures r != [] ==> !IsTrimmable(r[0]) && !IsTrimmable(r[|r| - 1])
  {
    var stripped := StripDisallowed(cat, s);
    TrimIsSubsequence(stripped, s);
    Trim(stripped)
  }

  lemma TrimIsSubsequence(t: string, s: string)
    requires IsSubsequence(t, s)
    ensures IsSubsequence(Trim(t), s)
  {
    var lo, hi :| TrimmedAt(Trim(t), t, lo, hi);
    SliceIsSubsequence(t, lo, hi);
    SubsequenceTransitive(Trim(t), t, s);
  }

  /** Only disallowed and trimmable characters are removed: every other character keeps its count. */
  lemma CleanTextKeepsAllowed(cat: Categories, s: string, c: char)
    requires Allowed(cat, c) && !IsTrimmable(c)
    ensures multiset(CleanText(cat, s))[c] == multiset(s)[c]
  {
    SelectCount(s, AllowedBy(cat), c);
    TrimKeepsVisible(StripDisallowed(cat, s), c);
  }

  /** Text made only of allowed characters, with no blank at either end, is left as it is. */
  lemma CleanTextFixed(cat: Categories, s: string)
    requires forall i :: 0 <= i < |s| ==> Allowed(cat, s[i])
    requires s != [] ==> !IsTrimmable(s[0]) && !IsTrimmable(s[|s| - 1])
    ensures CleanText(cat, s) == s
  {
    SelectFixed(s, AllowedBy(cat));
    TrimFixed(s);
  }

  /** Sanitising sanitised text changes nothing. */
  lemma CleanTextIdempotent(cat: Categories, s: string)
    ensures CleanText(cat, CleanText(cat, s)) == CleanText(cat, s)
  {
    CleanTextFixed(cat, CleanText(cat, s));
  }
}

=== FILE: selection.dfy ===
/**
 * The selection tracker of the overlay: the mouse handlers that turn a
 * press-drag-release gesture into a `java.awt.Rectangle`, and the guard that
 * decides whether the released rectangle is worth capturing.
 */
module Selection {
  import opened JavaInt
  import opened Results

  /** `java.awt.Point`, as delivered by `MouseEvent.getPoint`. */
  datatype Point = Point(x: Int32, y: Int32)

  /** `java.awt.Rectangle`. */
  datatype Rect = Rect(x: Int32, y: Int32, width: Int32, height: Int32)

  /** `new Rectangle()`: at the origin, not at the press point, and of zero size. */
  const EmptyRect: Rect := Rect(0, 0, 0, 0)

  /** The interval that starts at `lo` and has length `len` has `a` and `b` as its two ends. */
  predicate Spans(lo: int, len: int, a: int, b: int) {
    len >= 0 && ((lo == a && lo + len == b) || (lo == b && lo + len == a))
  }

  /** A distance whose magnitude a Java `int` can hold. */
  predicate Reachable(d: int) {
    -MaxInt32 <= d <= MaxInt32
  }

  /**
   * `updateSelectionRect`: the rectangle between the press point and the current point.
   * `Rectangle.setRect` receives int-valued doubles and stores them unchanged, so the
   * only loss is Java's 32-bit wrap-around in the subtraction and in `Math.abs`.
   */
  function UpdateRect(start: Point, end: Point): (r: Rect)
    ensures r.x <= start.x && r.x <= end.x && (r.x == start.x || r.x == end.x)
    ensures r.y <= start.y && r.y <= end.y && (r.y == start.y || r.y == end.y)
    ensures Reachable(end.x - start.x) ==> Spans(r.x, r.width, start.x, end.x)
    ensures Reachable(end.y - start.y) ==> Spans(r.y, r.height, start.y, end.y)
  {
    Rect(Min(start.x, end.x), Min(start.y, end.y),
         Abs(Sub(end.x, start.x)), Abs(Sub(end.y, start.y)))
  }

  /** Dragging from either corner to the other gives the same rectangle, even when the subtraction wraps. */
  lemma UpdateRectSymmetric(p: Point, q: Point)
    ensures UpdateRect(p, q) == UpdateRect(q, p)
  {
    AbsSubSymmetric(p.x, q.x);
    AbsSubSymmetric(p.y, q.y);
  }

  lemma AbsSubSymmetric(a: Int32, b: Int32)
    ensures Abs(Sub(a, b)) == Abs(Sub(b, a))
  {
    assert Sub(b, a) == Neg(Sub(a, b));
  }

  /**
   * Two points whose distance is not `Reachable` wrap: dragging from (0, 0) to (`MinInt32`, 10)
   * yields a rectangle of negative width, which the zero-size guard does not reject.
   */
  lemma WidthCanWrapNegative()
    ensures UpdateRect(Point(0, 0), Point(MinInt32, 10)).width < 0
    ensures Decide(Some(UpdateRect(Point(0, 0), Point(MinInt32, 10)))).Capture?
  {
  }

  /**
   * Any other distance beyond `Reachable` wraps to a wrong positive width: a drag from
   * x = `MaxInt32` to x = `MinInt32` spans 2^32 - 1 columns but yields width 1.
   */
  lemma WidthCanWrapPositive()
    ensures UpdateRect(Point(MaxInt32, 0), Point(MinInt32, 5)).width == 1
    ensures Decide(Some(UpdateRect(Point(MaxInt32, 0), Point(MinInt32, 5)))).Capture?
  {
  }

  // ---------------------------------------------------------------- the mouse handlers

  datatype Event = Press(at: Point) | Drag(at: Point) | Release(at: Point)

  /**
   * The overlay's fields `startDrag` and `selectionRect` as one state:
   * `Idle` before any press (both `null`), `Dragging` between press and release,
   * `Released` once the overlay has been disposed, holding the rectangle handed to the guard.
   */
  datatype Tracker =
    | Idle
    | Dragging(start: Point, rect: Rect)
    | Released(selection: Option<Rect>)

  /** One mouse event. */
  function Step(t: Tracker, e: Event): (t': Tracker)
    ensures e.Press? && !t.Released? ==> t' == Dragging(e.at, EmptyRect)
    ensures e.Drag? && t.Dragging? ==> t' == Dragging(t.start, UpdateRect(t.start, e.at))
    ensures e.Drag? && t.Idle? ==> t' == t
    ensures e.Release? && t.Dragging? ==> t' == Released(Some(t.rect))
    ensures e.Release? && t.Idle? ==> t' == Released(None)
    ensures t.Released? ==> t' == t
  {
    match t
    case Released(_) => t  // the overlay is disposed and receives no further events
    case Idle =>
      (match e
       case Press(p) => Dragging(p, EmptyRect)
       case Drag(_) => t     // `startDrag` is null: the handler throws and nothing changes
       case Release(_) => Released(None))
    case Dragging(start, rect) =>
      (match e
       case Press(p) => Dragging(p, EmptyRect)
       case Drag(p) => Dragging(start, UpdateRect(start, p))
       case Release(_) => Released(Some(rect)))  // the release point itself is not used
  }

  function Run(t: Tracker, events: seq<Event>): Tracker
    decreases |events|
  {
    if events == [] then t else Run(Step(t, events[0]), events[1..])
  }

  lemma {:induction false} RunAppend(t: Tracker, a: seq<Event>, b: seq<Event>)
    ensures Run(t, a + b) == Run(Run(t, a), b)
    decreases |a|
  {
    if a != [] {
      assert (a + b)[1..] == a[1..] + b;
      RunAppend(Step(t, a[0]), a[1..], b);
    } else {
      assert a + b == b;
    }
  }

  predicate AllDrags(events: seq<Event>) {
    forall i :: 0 <= i < |events| ==> events[i].Drag?
  }

  /** During a drag only the last pointer position matters. */
  lemma {:induction false} LastDragWins(start: Point, rect: Rect, drags: seq<Event>)
    requires |drags| >= 1 && AllDrags(drags)
    ensures Run(Dragging(start, rect), drags) == Dragging(start, UpdateRect(start, drags[|drags| - 1].at))
    decreases |drags|
  {
    var t := Step(Dragging(start, rect), drags[0]);
    if |drags| == 1 {
      assert Run(t, drags[1..]) == t;
    } else {
      LastDragWins(start, UpdateRect(start, drags[0].at), drags[1..]);
    }
  }

  /** A press, some drags and a release hand the guard the rectangle between the press point and the last drag point. */
  lemma Gesture(t: Tracker, p: Point, drags: seq<Event>, q: Point)
    requires !t.Released?
    requires |drags| >= 1 && AllDrags(drags)
    ensures Run(t, [Press(p)] + drags + [Release(q)]) == Released(Some(UpdateRect(p, drags[|drags| - 1].at)))
  {
    RunAppend(t, [Press(p)], drags + [Release(q)]);
    assert [Press(p)] + drags + [Release(q)] == [Press(p)] + (drags + [Release(q)]);
    RunAppend(Dragging(p, EmptyRect), drags, [Release(q)]);
    LastDragWins(p, EmptyRect, drags);
  }

  /** A click without a drag leaves the empty rectangle of the press, which the guard rejects. */
  lemma ClickIsRejected(t: Tracker, p: Point, q: Point)
    requires !t.Released?
    ensures Run(t, [Press(p), Release(q)]) == Released(Some(EmptyRect))
    ensures Decide(Some(EmptyRect)).Reject?
  {
    var pressed := Step(t, Press(p));
    assert Run(t, [Press(p), Release(q)]) == Run(pressed, [Release(q)]);
    assert Run(pressed, [Release(q)]) == Run(Step(pressed, Release(q)), []);
  }

  /** The rectangle is the empty one of a press or the normalisation of two points. */
  ghost predicate Derived(r: Rect) {
    r == EmptyRect || exists s, q :: r == UpdateRect(s, q)
  }

  ghost predicate Consistent(t: Tracker) {
    match t
    case Idle => true
    case Dragging(s, r) => r == EmptyRect || exists q :: r == UpdateRect(s, q)
    case Released(sel) => sel.None? || Derived(sel.value)
  }

  /** Whatever the events, the tracker only ever holds rectangles that the handlers can derive. */
  lemma {:induction false} RunConsistent(t: Tracker, events: seq<Event>)
    requires Consistent(t)
    ensures Consistent(Run(t, events))
    decreases |events|
  {
    if events != [] {
      var t' := Step(t, events[0]);
      if t.Dragging? && events[0].Release? && t.rect != EmptyRect {
        var q :| t.rect == UpdateRect(t.start, q);
        assert Derived(t.rect);
      }
      if t.Dragging? && events[0].Drag? {
        assert t'.rect == UpdateRect(t.start, events[0].at);
      }
      assert Consistent(t');
      RunConsistent(t', events[1..]);
    }
  }

  // ---------------------------------------------------------------- the guard

  datatype Decision = Reject | Capture(area: Rect)

  /** `processSelection`'s guard: a null rectangle or one of zero width or height is rejected. */
  function Decide(selection: Option<Rect>): (d: Decision)
    ensures d.Reject? <==> selection.None? || selection.value.width == 0 || selection.value.height == 0
    ensures d.Capture? ==> d.area == selection.value
  {
    match selection
    case None => Reject
    case Some(r) => if r.width == 0 || r.height == 0 then Reject else Capture(r)
  }
}

=== FILE: sequences.dfy ===
/** Order-preserving selection from a sequence, and the subsequence relation it produces. */
module Sequences {

  /** `a` can be obtained from `b` by deleting elements, keeping the order of the rest. */
  predicate IsSubsequence<T(==)>(a: seq<T>, b: seq<T>)
    decreases |b|
  {
    || a == []
    || (&& b != []
        && ((a[0] == b[0] && IsSubsequence(a[1..], b[1..])) || IsSubsequence(a, b[1..])))
  }

  /** The elements of `s` that satisfy `keep`, in their original order. */
  function Select<T>(s: seq<T>, keep: T -> bool): (r: seq<T>)
    ensures |r| <= |s|
    ensures forall i :: 0 <= i < |r| ==> keep(r[i])
    ensures forall i :: 0 <= i < |r| ==> r[i] in s
  {
    if s == [] then []
    else if keep(s[0]) then [s[0]] + Select(s[1..], keep)
    else Select(s[1..], keep)
  }

  /** Selecting from a concatenation selects from each part. */
  lemma {:induction false} SelectAppend<T>(a: seq<T>, b: seq<T>, keep: T -> bool)
    ensures Select(a + b, keep) == Select(a, keep) + Select(b, keep)
  {
    if a == [] {
      assert a + b == b;
    } else {
      assert (a + b)[1..] == a[1..] + b;
      SelectAppend(a[1..], b, keep);
    }
  }

  /** Selection deletes elements and never reorders them. */
  lemma {:induction false} SelectIsSubsequence<T>(s: seq<T>, keep: T -> bool)
    ensures IsSubsequence(Select(s, keep), s)
  {
    if s != [] {
      SelectIsSubsequence(s[1..], keep);
      if keep(s[0]) {
        var r := Select(s, keep);
        assert r[0] == s[0] && r[1..] == Select(s[1..], keep);
      }
    }
  }

  /** Every element that satisfies `keep` survives as often as it occurs; every other one is gone. */
  lemma {:induction false} SelectCount<T>(s: seq<T>, keep: T -> bool, x: T)
    ensures multiset(Select(s, keep))[x] == if keep(x) then multiset(s)[x] else 0
  {
    if s != [] {
      SelectCount(s[1..], keep, x);
      assert s == [s[0]] + s[1..];
      assert multiset(s) == multiset{s[0]} + multiset(s[1..]);
    }
  }

  /** Selection changes nothing exactly when every element already satisfies `keep`. */
  lemma {:induction false} SelectFixed<T>(s: seq<T>, keep: T -> bool)
    ensures Select(s, keep) == s <==> forall i :: 0 <= i < |s| ==> keep(s[i])
  {
    if s != [] {
      SelectFixed(s[1..], keep);
      if !keep(s[0]) {
        assert |Select(s, keep)| < |s|;
      } else {
        assert forall i :: 1 <= i < |s| ==> s[i] == s[1..][i - 1];
      }
    }
  }

  /** A contiguous slice is a subsequence. */
  lemma {:induction false} SliceIsSubsequence<T>(s: seq<T>, lo: int, hi: int)
    requires 0 <= lo <= hi <= |s|
    ensures IsSubsequence(s[lo..hi], s)
    decreases |s|
  {
    if lo < hi {
      if lo > 0 {
        assert forall k :: 0 <= k < hi - lo ==> s[lo..hi][k] == s[1..][lo - 1..hi - 1][k];
        assert s[lo..hi] == s[1..][lo - 1..hi - 1];
        SliceIsSubsequence(s[1..], lo - 1, hi - 1);
      } else {
        assert s[lo..hi][1..] == s[1..][0..hi - 1];
        SliceIsSubsequence(s[1..], 0, hi - 1);
      }
    }
  }

  lemma {:induction false} SubsequenceTransitive<T>(a: seq<T>, b: seq<T>, c: seq<T>)
    requires IsSubsequence(a, b) && IsSubsequence(b, c)
    ensures IsSubsequence(a, c)
    decreases |c|
  {
    if a != [] {
      if b[0] == c[0] && IsSubsequence(b[1..], c[1..]) {
        if a[0] == b[0] && IsSubsequence(a[1..], b[1..]) {
          SubsequenceTransitive(a[1..], b[1..], c[1..]);
        } else {
          SubsequenceTransitive(a, b[1..], c[1..]);
        }
      } else {
        SubsequenceTransitive(a, b, c[1..]);
      }
    }
  }
}

=== FILE: tesseract.dfy ===
/**
 * The out-of-process OCR invoker: the startup version probe, the engine's argument
 * vector, the filter over its output lines, and the decision between a result and an
 * error once the process has exited. Spawning the process and reading its streams are
 * not modelled: the process is represented by the lines it printed and its exit code.
 */
module Tesseract {
  import opened Results
  import opened JavaInt
  import opened JavaString
  import opened Sequences

  // ---------------------------------------------------------------- startup probe

  /** What `tesseract --version` produced: an exception while starting it, or its merged output. */
  datatype Probe = LaunchFailed(reason: string) | Printed(output: string)

  datatype Startup = ShowOverlay | ExitWithError(message: string, status: int)

  const RequiredPrefix: string := "Требуется Tesseract. Найдено: "

  /** The version check: the lower-cased output mentions the engine. */
  predicate ProbeAccepts(version: string) {
    Contains(ToLower(version), "tesseract")
  }

  /** `version` has the engine's name at `i`, compared ignoring ASCII case. */
  predicate MentionsEngineAt(version: string, i: int) {
    && 0 <= i && i + 9 <= |version|
    && forall j :: i <= j < i + 9 ==> LowerChar(version[j]) == "tesseract"[j - i]
  }

  /** The probe accepts exactly the outputs that mention the engine in any ASCII case. */
  lemma ProbeAcceptsIff(version: string)
    ensures ProbeAccepts(version) <==> exists i :: MentionsEngineAt(version, i)
  {
    var low := ToLower(version);
    if ProbeAccepts(version) {
      var i :| OccursAt(low, "tesseract", i);
      assert forall j :: i <= j < i + 9 ==> low[j] == low[i..i + 9][j - i];
      assert MentionsEngineAt(version, i);
    }
    if i :| MentionsEngineAt(version, i) {
      assert forall k :: 0 <= k < 9 ==> low[i..i + 9][k] == "tesseract"[k];
      assert low[i..i + 9] == "tesseract";
      assert OccursAt(low, "tesseract", i);
    }
  }

  /** `checkTesseractInstallation`, with `showErrorAndExit`'s status. */
  function CheckInstallation(probe: Probe): (r: Startup)
    ensures r.ShowOverlay? <==> probe.Printed? && ProbeAccepts(probe.output)
    ensures r.ExitWithError? ==> r.status == 1
    ensures probe.LaunchFailed? ==> r == ExitWithError(probe.reason, 1)
    ensures r.ExitWithError? && probe.Printed? ==> StartsWith(r.message, RequiredPrefix)
    ensures r.ExitWithError? && probe.Printed? ==> r.message[|RequiredPrefix|..] == probe.output
  {
    match probe
    case LaunchFailed(reason) => ExitWithError(reason, 1)
    case Printed(version) =>
      if ProbeAccepts(version) then ShowOverlay
      else ExitWithError(RequiredPrefix + version, 1)
  }

  lemma ProbeExamples()
    ensures ProbeAccepts("tesseract 5.3.0\n leptonica-1.82.0")
    ensures ProbeAccepts("TESSERACT")
    ensures !ProbeAccepts("tesserac")
  {
    assert OccursAt(ToLower("tesseract 5.3.0\n leptonica-1.82.0"), "tesseract", 0);
    assert OccursAt(ToLower("TESSERACT"), "tesseract", 0);
  }

  // ---------------------------------------------------------------- the command

  /** The resolution `setDPI` writes into the image's metadata. */
  const Dpi: nat := 300

  /** The argument vector `runTesseract` hands to `ProcessBuilder`. */
  function Command(imagePath: string): (argv: seq<string>)
    ensures |argv| == 9 && argv[0] == "tesseract"
  {
    ["tesseract", imagePath, "stdout", "-l", "rus+eng", "--dpi", "300", "-c", "debug_file=/dev/null"]
  }

  /** How the engine reads its arguments: positionals, and options that take the next argument as value. */
  datatype Invocation = Invocation(positionals: seq<string>, options: seq<(string, string)>)

  predicate TakesValue(arg: string) {
    arg in {"-l", "--dpi", "-c", "--psm", "--oem", "--tessdata-dir", "--user-words", "--user-patterns"}
  }

  function ParseArgs(args: seq<string>): Invocation
    decreases |args|
  {
    if args == [] then Invocation([], [])
    else if TakesValue(args[0]) && |args| >= 2 then
      var rest := ParseArgs(args[2..]);
      rest.(options := [(args[0], args[1])] + rest.options)
    else
      var rest := ParseArgs(args[1..]);
      rest.(positionals := [args[0]] + rest.positionals)
  }

  /** The options of the command, which follow its two positionals. */
  const OptionArgs: seq<string> := ["-l", "rus+eng", "--dpi", "300", "-c", "debug_file=/dev/null"]

  lemma OptionArgsParse()
    ensures ParseArgs(OptionArgs)
      == Invocation([], [("-l", "rus+eng"), ("--dpi", "300"), ("-c", "debug_file=/dev/null")])
  {
    var c := OptionArgs[4..];
    assert ParseArgs(c) == Invocation([], [("-c", "debug_file=/dev/null")]) by {
      assert c[2..] == [];
    }
    var dpi := OptionArgs[2..];
    assert ParseArgs(dpi) == Invocation([], [("--dpi", "300"), ("-c", "debug_file=/dev/null")]) by {
      assert dpi[2..] == c;
    }
    assert OptionArgs[2..] == dpi;
  }

  /** The DPI option's text reads back as the resolution the image is tagged with. */
  lemma DpiOptionMatchesImage()
    ensures ParseDecimal("300") == Some(Dpi as int)
  {
    assert Decimal(Dpi) == "300";
  }

  /**
   * For an image path that does not look like an option (an absolute path never does),
   * the engine sees that image, writes to standard output, recognises Russian and English,
   * assumes the resolution the image is tagged with, and sends its debug log to /dev/null.
   */
  lemma CommandMeaning(imagePath: string)
    requires imagePath != [] && imagePath[0] != '-'
    ensures var inv := ParseArgs(Command(imagePath)[1..]);
      && inv.positionals == [imagePath, "stdout"]
      && inv.options == [("-l", "rus+eng"), ("--dpi", "300"), ("-c", "debug_file=/dev/null")]
      && ParseDecimal(inv.options[1].1) == Some(Dpi as int)
  {
    DpiOptionMatchesImage();
    assert !TakesValue(imagePath);
    var args := Command(imagePath)[1..];
    assert args == [imagePath, "stdout"] + OptionArgs;
    assert args[1..] == ["stdout"] + OptionArgs;
    assert args[1..][1..] == OptionArgs;
    OptionArgsParse();
  }

  // ---------------------------------------------------------------- output lines

  /** `getStrings`' test: not empty, and no banner (`Tesseract ...`) or progress (`Estimating ...`) line. */
  predicate KeepLine(line: string) {
    !StartsWith(line, "Estimating") && line != [] && !StartsWith(line, "Tesseract")
  }

  function KeptLines(output: seq<string>): seq<string> {
    Select(output, KeepLine)
  }

  /** `getStrings`: the loop over `readLine`. */
  method GetStrings(output: seq<string>) returns (lines: seq<string>)
    ensures lines == KeptLines(output)
    ensures IsSubsequence(lines, output)
    ensures forall i :: 0 <= i < |lines| ==> KeepLine(lines[i])
    ensures forall line :: KeepLine(line) ==> multiset(lines)[line] == multiset(output)[line]
  {
    lines := [];
    var i := 0;
    while i < |output|
      invariant 0 <= i <= |output|
      invariant lines == Select(output[..i], KeepLine)
    {
      var line := output[i];
      if !StartsWith(line, "Estimating") && line != [] && !StartsWith(line, "Tesseract") {
        lines := lines + [line];
      }
      assert output[..i + 1] == output[..i] + [line];
      SelectAppend(output[..i], [line], KeepLine);
      i := i + 1;
    }
    assert output[..i] == output;
    SelectIsSubsequence(output, KeepLine);
    forall line | KeepLine(line)
      ensures multiset(lines)[line] == multiset(output)[line]
    {
      SelectCount(output, KeepLine, line);
    }
  }

  // ---------------------------------------------------------------- result or error

  const ErrorCodePrefix: string := "Tesseract error code: "
  const NoTextMessage: string := "No text recognized"

  /** What `runTesseract` returns or throws once the engine has printed `output` and exited with `exitCode`. */
  function RunTesseract(output: seq<string>, exitCode: Int32): (r: Result<string>)
    ensures r.Err? <==> exitCode != 0 || KeptLines(output) == []
    ensures exitCode != 0 ==> StartsWith(r.message, ErrorCodePrefix)
    ensures exitCode == 0 && KeptLines(output) == [] ==> r.message == NoTextMessage
    ensures r.Ok? ==> IsTrimOf(r.value, Join(KeptLines(output), '\n'))
  {
    var lines := KeptLines(output);
    if exitCode != 0 then
      Err(ErrorCodePrefix + Decimal(exitCode) + "\nOutput: " + Join(lines, '\n'))
    else if lines == [] then
      Err(NoTextMessage)
    else
      Ok(Trim(Join(lines, '\n')))
  }

  /** The error message of a failed run names the exit code, which reads back from its first line. */
  lemma ErrorNamesExitCode(output: seq<string>, exitCode: Int32)
    requires exitCode != 0
    ensures var m := RunTesseract(output, exitCode).message;
      ParseDecimal(Split(m[|ErrorCodePrefix|..], '\n')[0]) == Some(exitCode as int)
  {
    var m := RunTesseract(output, exitCode).message;
    var tail := "Output: " + Join(KeptLines(output), '\n');
    assert m[|ErrorCodePrefix|..] == Decimal(exitCode) + ['\n'] + tail;
    SplitFirst(Decimal(exitCode), tail, '\n');
  }

  /** The error message of a failed run ends with every kept output line, in order. */
  lemma ErrorCarriesOutput(output: seq<string>, exitCode: Int32)
    requires exitCode != 0
    requires forall i :: 0 <= i < |output| ==> '\n' !in output[i]
    requires KeptLines(output) != []
    ensures var m := RunTesseract(output, exitCode).message;
      exists k :: 0 <= k <= |m| && Split(m[k..], '\n') == KeptLines(output)
  {
    var m := RunTesseract(output, exitCode).message;
    var joined := Join(KeptLines(output), '\n');
    var k := |m| - |joined|;
    assert m[k..] == joined;
    SplitJoin(KeptLines(output), '\n');
  }

  /**
   * The lines a successful run joins (before `trim`) are the kept lines, in the engine's
   * order: no banner, progress or empty line among them.
   */
  lemma ResultHasNoBanner(output: seq<string>)
    requires forall i :: 0 <= i < |output| ==> '\n' !in output[i]
    requires RunTesseract(output, 0).Ok?
    ensures var lines := Split(Join(KeptLines(output), '\n'), '\n');
      && IsSubsequence(lines, output)
      && forall i :: 0 <= i < |lines| ==> KeepLine(lines[i])
  {
    SplitJoin(KeptLines(output), '\n');
    SelectIsSubsequence(output, KeepLine);
  }

  /**
   * The emptiness test comes before `trim`: an engine that prints only blank-but-not-empty
   * lines yields an empty result, not "No text recognized".
   */
  lemma BlankOutputIsNotAnError()
    ensures RunTesseract([" "], 0) == Ok("")
  {
    assert KeepLine(" ");
    assert KeptLines([" "]) == [" "];
    assert Trim(" ") == "";
  }

  /**
   * `trim` runs after the filter: a banner line with leading blanks is kept, and trimming
   * then hands on text that starts with the engine's name.
   */
  lemma TrimExposesBanner()
    ensures RunTesseract([" Tesseract 5.3.0"], 0) == Ok("Tesseract 5.3.0")
  {
    var line: string := " Tesseract 5.3.0";
    var none: seq<string> := [];
    FirstCharDiffers(line, "Estimating");
    FirstCharDiffers(line, "Tesseract");
    assert KeepLine(line);
    assert KeptLines([line]) == [line] by {
      assert [line][1..] == none;
    }
    var text := line[1..];
    assert text == "Tesseract 5.3.0";
    assert !IsTrimmable(text[0]) && !IsTrimmable(text[|text| - 1]);
    assert TrimmedAt(text, line, 1, |line|);
    TrimUnique(text, line);
  }

  /**
   * When such a banner line follows a kept line, `trim` leaves it alone: the banner stays
   * inside the text, after a newline and its leading blank.
   */
  lemma BannerInsideText()
    ensures RunTesseract(["text", " Tesseract"], 0) == Ok("text\n Tesseract")
  {
    var first: string := "text";
    var banner: string := " Tesseract";
    FirstCharDiffers(banner, "Estimating");
    FirstCharDiffers(banner, "Tesseract");
    assert KeepLine(first) && KeepLine(banner);
    var output := [first, banner];
    assert forall i :: 0 <= i < |output| ==> KeepLine(output[i]);
    SelectFixed(output, KeepLine);
    var joined := first + ['\n'] + banner;
    assert Join([first, banner], '\n') == joined by {
      assert [first, banner][1..] == [banner];
    }
    assert joined == "text\n Tesseract";
    TrimFixed(joined);
  }

  /** A non-zero exit code is reported even when the engine printed nothing worth keeping. */
  lemma ExitCodeCheckedFirst(output: seq<string>, exitCode: Int32)
    requires exitCode != 0 && KeptLines(output) == []
    ensures RunTesseract(output, exitCode).message != NoTextMessage
  {
  }
}
